=== FILE: README.md ===
# fresh.db store core, modelled in Dafny

fresh.db is a file-backed JSON document store for a single process. Every
public call loads the whole document from one file, reads or changes the
value at a key path, and saves the whole document back. This project models
that core functionally:

- `Json` (json.dfy): a document is a mapping from strings to tagged JSON
  values (`Null`, `Bool`, `Int`, `Str`, `Arr`, `Obj`), and `Truthy` is
  JavaScript's ToBoolean. `None` of `Outcomes.Option` stands for `undefined`.
- `Paths` (paths.dfy): key-path resolution over mappings — `Get`, `Has`,
  `Put` (set, creating intermediate mappings) and `Unset`. These are what
  the store asks of lodash's `get`, `has`, `set` and `unset`.
- `Facade` (facade.dfy): `get`, `set`, `del`, `has`, `clear`, `getAll` and
  `update` as pure steps. A step maps a loaded document to its answer, the
  document to save, and whether a save happens.
- `Shorthands` (shorthands.dfy): the `s.*` helpers. `push`, `unshift`,
  `shift`, `pop` and `splice` share one container check; `add` and
  `subtract` are built on `update`.
- `Persistence` (persistence.dfy): `getDB`, `setDB` and `fixFilePath` over
  an abstract file (`Absent`, `Garbage`, `Holds(doc)`). A script of
  per-attempt outcomes (`Succeeds`, `Faults`, `Truncates`) stands in for the file system.
  The suppression flag (`disableGetSetErrors`) chooses between rethrowing
  and retrying.
- `Store` (store.dfy): one public call end to end. It loads (except for
  `clear`), applies the step, saves when the step writes, and for `update`
  and its shorthands loads once more.

Behaviour of the code that the model keeps:

- `del` answers lodash's `unset` result. That is
  `parent == null || delete parent[key]`, which is `true` for every path
  through mappings, absent ones included. A path ending in a built-in
  property of a string or sequence is the exception (see the Paths lines
  under "## Left out"). `del` always saves. Only the last key goes: a
  mapping on the way that `del` leaves empty stays in the document.
- `get(path)` with no default on an absent path still saves. lodash writes
  `undefined` at the path, which creates any missing intermediate mappings
  and replaces a scalar or `null` on the way by a mapping as well: a plain
  read `get("a.b")` on `{a: 5}` saves `{a: {}}`, and the 5 is lost. The
  serialiser then drops the `undefined` key. `Paths.Put` with `None`
  models exactly this saved result (`Paths.PutMakesPrefixes`).
- The sequence helpers replace every falsy value with `[]`: undefined,
  `null`, `0`, `""` and `false`. Only a truthy non-sequence is a usage error.
- `s.splice(path, start)` without a count removes nothing. The helper
  passes `undefined` explicitly, and `Array.prototype.splice` reads an
  explicitly passed `undefined` count as 0.
- `set(path, undefined)` saves the document with any missing intermediate
  mappings created and the last key left out, and answers undefined.
  Undefined arguments of `push`/`unshift` are saved as `null` elements.
- `writeFileSync` empties the file before writing. A write that fails after
  that point leaves a file that does not parse, and the next load fails
  with a parse error (`Persistence.TruncatedWriteBreaksLoad`).
- `update` (and every shorthand) loads again after saving. If that second
  load fails, the call throws although the save has already landed
  (`Store.UpdateFailsAfterSave`).
- Under suppression, a file that does not parse is never repaired, so
  loading it never succeeds (`Persistence.LoadSuppressedGarbage`).

## Model

| member | source | states |
|---|---|---|
| Paths.Get | index.js:118 | a value is found only under a present first key that, unless it is the last key, holds a mapping; traversal never looks into sequences or scalars |
| Paths.Has | index.js:156 | `has` holds exactly when `get` finds a value, an explicit `null` included |
| Paths.Put | index.js:133 | a write keeps every top-level key and adds the path's first key, except that writing undefined directly under the root drops that key |
| Paths.Unset | index.js:144 | unset never adds keys: it removes the first key of a one-key path and keeps the top-level keys otherwise |
| Paths.PutFrame | index.js:133 | a write at a path leaves the value at every independent path unchanged |
| Paths.UnsetFrame | index.js:144 | unset at a path leaves the value at every independent path unchanged |
| Paths.PutMakesPrefixes | index.js:133 | after a write, every proper prefix of the path holds a mapping: missing and non-mapping intermediates have become mappings |
| Paths.UnsetKeepsPrefixes | index.js:144 | unset deletes only the last key: every proper prefix of the path holds a mapping afterwards exactly when it did before, so a parent left empty stays |
| Paths.GetPut | index.js:132-135 | read after write: the value (or undefined) placed at a path is what is read back there |
| Paths.GetPutIndependent | index.js:132-135 | a write at one path leaves every path that is neither its prefix nor its extension unchanged |
| Paths.PutExisting | index.js:132-135 | writing the value a path already holds yields the same document |
| Paths.PutPut | index.js:132-135 | two writes to one path equal the second write alone |
| Paths.UnsetRemoves | index.js:142-147 | after unset the path is no longer present |
| Paths.UnsetChangesIff | index.js:142-147 | unset changes the document if and only if the path was present |
| Paths.GetUnsetIndependent | index.js:142-147 | unset leaves every independent path unchanged |
| Paths.UnsetIsPutUndefined | index.js:187-190 | on a present path, unset and writing undefined save the same document |
| Facade.Get | index.js:116-125 | a present value (also `null`) is answered with no save; an absent one makes the default the answer, saved and readable at the path, with mappings created along the path and every independent path kept |
| Facade.Set | index.js:132-135 | `set` answers the value (undefined included), saves, the value is then at the path with a mapping at each of its prefixes, and every independent path keeps its value |
| Facade.SetSameValue | index.js:132-135 | setting the value already there saves an unchanged document |
| Facade.Del | index.js:142-147 | `del` answers true, always saves, leaves the path absent, changes the document exactly when the path was present, keeps every mapping along the path (an emptied parent included), and keeps every independent path |
| Facade.Has | index.js:155-157 | `has` answers whether a value is defined at the path and never saves |
| Facade.Clear | index.js:165-168 | `clear` saves and answers the empty mapping, after which no path holds a value |
| Facade.GetAll | index.js:174-176 | `getAll` answers the loaded document unchanged and never saves |
| Facade.Update | index.js:187-190 | a throwing updater means no save and its error; otherwise the updater's result is saved and is the value read back, mappings are created along the path, and every independent path is kept |
| Facade.SetThenGet | index.js:116-135 | `set(P, V)` then `get(P, D)` answers V without saving |
| Facade.DefaultPersists | index.js:116-125 | `get(P, D)` on an absent P answers D, and a later `get(P)` answers D without saving |
| Facade.DelThenHas | index.js:142-157 | `del(P)` then `has(P)` answers false |
| Facade.UserSession | index.js:116-176 | a concrete session of set, getAll, del, has and get-with-default gives the expected answers and documents |
| Json.Truthy | index.js:199 | the falsy values are exactly undefined, `null`, `false`, `0` and `""` |
| Shorthands.Numeric | index.js:255-268 | undefined, `null` and `false` count as 0, `true` as 1, an integer as itself; strings, sequences and mappings are not covered |
| Shorthands.SequenceUpdater | index.js:197-204 | the updater a sequence helper hands to `update` throws exactly on a truthy non-sequence and otherwise returns the edited sequence of the current one, `[]` for a falsy value |
| Shorthands.AsElements | index.js:202 | the saved elements of `push`/`unshift` are the arguments in order, one for one, an undefined argument saved as `null` |
| Shorthands.Container | index.js:197-201 | a sequence is kept, every falsy value becomes `[]`, a truthy non-sequence is a usage error |
| Shorthands.EditAt | index.js:195-206 | a sequence helper fails exactly on a truthy non-sequence; otherwise it saves the edited sequence, answers the captured value, creates mappings along the path, and keeps every independent path |
| Shorthands.Push | index.js:195-206 | `push` appends the values in order (undefined as `null`), saves, answers the new length and keeps every independent path; it fails exactly on a truthy non-sequence, with the usage error |
| Shorthands.Unshift | index.js:207-218 | `unshift` prepends the values in order (undefined as `null`), saves, answers the new length and keeps every independent path; it fails exactly on a truthy non-sequence, with the usage error |
| Shorthands.Shift | index.js:219-230 | `shift` answers the first element, and that element followed by what is saved gives the old sequence; undefined on empty; it always saves and keeps every independent path; it fails exactly on a truthy non-sequence, with the usage error |
| Shorthands.Pop | index.js:231-242 | `pop` answers the last element, and what is saved followed by that element gives the old sequence; undefined on empty; it always saves and keeps every independent path; it fails exactly on a truthy non-sequence, with the usage error |
| Shorthands.SpliceStart | index.js:243-254 | the splice start counts a negative start from the end and is clamped to 0 below and to the length above |
| Shorthands.SpliceCount | index.js:243-254 | the delete count is the given count clamped to 0 below and to the elements after the start above |
| Shorthands.SpliceEdit | index.js:250 | the run `splice` removes has the clamped length, and putting it back into what stays at the start rebuilds the input |
| Shorthands.Splice | index.js:243-254 | `splice` answers the removed run of the clamped length; putting it back into the saved rest at the start rebuilds the old sequence; it saves and keeps every independent path; it fails exactly on a truthy non-sequence, with the usage error |
| Shorthands.Add | index.js:255-261 | `add` fails exactly on a string, sequence or mapping; otherwise it adds to the numeric value (undefined and `null` as 0, booleans as 0/1), saves, answers the sum as read back, and keeps every independent path |
| Shorthands.Subtract | index.js:262-268 | `subtract` fails exactly on a string, sequence or mapping; otherwise it subtracts from the numeric value (undefined and `null` as 0, booleans as 0/1), saves, answers the difference as read back, and keeps every independent path |
| Shorthands.PushThenPop | index.js:195-242 | pushing a value then popping answers that value and restores the sequence |
| Shorthands.UnshiftThenShift | index.js:207-230 | unshifting a value then shifting answers that value and restores the sequence |
| Shorthands.CountFromAbsent | index.js:255-261 | n sequential `add(P, 1)` calls from an absent P leave n at P, so the updater runs once per call |
| Persistence.FixFilePath | index.js:53-62 | the file exists afterwards; a missing file becomes `{}`; an existing one is left as it was |
| Persistence.FixFilePathIdempotent | index.js:53-62 | fixing the file path twice is the same as once |
| Persistence.Save | index.js:66-76 | a successful save leaves the file holding the document; a failed one leaves it as it was, or not parsing when a write truncated it; without suppression there is one attempt; under suppression only exhaustion surfaces |
| Persistence.Load | index.js:78-102 | a load that succeeds answers what the file holds; loading changes the file at most by creating it as `{}`; without suppression there is one attempt; under suppression only exhaustion surfaces |
| Persistence.LoadUnsuppressedFirstAttempt | index.js:78-102 | without suppression the first attempt decides: a read failure runs `fixFilePath` and throws, a parse failure throws, otherwise the document is answered |
| Persistence.LoadSuppressedHolds | index.js:78-102 | under suppression a document file loads exactly when some attempt gets through, and the document is the one on file |
| Persistence.LoadSuppressedAbsent | index.js:78-102 | under suppression a missing file is created and loads as `{}` exactly when a later attempt gets through |
| Persistence.LoadSuppressedGarbage | index.js:92-100 | under suppression an unparsable file is never repaired, so loading it never succeeds |
| Persistence.SaveUnsuppressedFirstAttempt | index.js:66-76 | without suppression the first write attempt decides: a fault throws IOError with the file untouched, a truncating fault throws IOError leaving an unparsable file, otherwise the document is saved |
| Persistence.TruncatedWriteBreaksLoad | index.js:68 | a write that fails after truncating throws, and the next unsuppressed load fails with a parse error |
| Persistence.SaveSuppressed | index.js:66-76 | under suppression a save lands exactly when some attempt gets through |
| Persistence.FirstSuccess | index.js:74 | the position of the first attempt that gets through: it succeeds and none before it does |
| Persistence.SaveStopsAtFirstSuccess | index.js:66-76 | under suppression a save retries exactly until the first attempt that gets through, lands the document there, and leaves the later attempts for the rest of the call |
| Persistence.LoadStopsAtFirstSuccess | index.js:78-102 | under suppression a load of a document file retries exactly until the first attempt that gets through, answers the document, and leaves the later attempts |
| Persistence.LoadAbsentStopsAtFirstSuccess | index.js:84-89 | under suppression a missing file fails its first read, is created as `{}`, and then loads at the first later attempt that gets through |
| Store.Apply | index.js:116-268 | the step of each public call: a step that does not save leaves the loaded document as it was; apart from `update`'s own updater only usage and coercion errors arise; `update`, `add` and `subtract` answer the value their step leaves at the path |
| Store.Finish | index.js:116-190 | after a load: an error that is not a file error comes from the step and leaves the world as loaded; a step that does not write answers at once; a successful call comes from a successful step, answers its reply and, if it writes, leaves the file holding its document; under suppression only exhaustion surfaces |
| Store.Run | index.js:116-190 | usage errors leave the file untouched; `has` and `getAll` change it at most by creating it; under suppression no read, parse or write error reaches the caller |
| Store.ApplyToEmpty | index.js:195-268 | no operation except a throwing `update` fails on the empty document; steps raise only usage and coercion errors |
| Store.RunOk | index.js:66-190 | a call that succeeds, after any number of retried faults, answers its step's reply on the document the file held (`{}` for a missing file), leaves the file holding what the step saves, and never started from an unparsable file unless it is `clear` |
| Store.RunSuppressedRetries | index.js:66-190 | under suppression, once enough attempts get through (one per load, save and re-load), a call on a document file answers its step's reply and leaves what the step saves, whatever faults and truncated writes came in between |
| Store.SetThroughFaults | index.js:66-135 | a suppressed `set` gets through a fault, a truncated write and another fault, answers the value and leaves the document with it saved |
| Store.RunFaultFree | index.js:116-190 | with the file holding a document and no faults, a call answers its step's answer and the file ends holding what the step saves |
| Store.SetThenGet | index.js:116-135 | a successful `set` followed by a successful `get` answers the set value and writes nothing |
| Store.DelThenHas | index.js:142-157 | a successful `del` followed by a successful `has` answers false |
| Store.ClearThenGetAll | index.js:165-176 | a successful `clear` followed by a successful `getAll` answers the empty mapping |
| Store.UpdateFailsAfterSave | index.js:187-190 | `update` can report a read failure after its save has already landed |

## Left out

- Paths: lodash's path syntax is not modelled. The model takes paths already split into keys. Brackets, quoting and empty segments of the dotted string are not covered.
- Paths: traversal goes through mappings only. In lodash, a sequence in the middle of a path is indexed by numeric keys, and `set` keeps it and assigns a property on it. A numeric key also makes `set` create a sequence rather than a mapping. Here any non-mapping reads as absent and is replaced by a fresh mapping on write.
- Paths: prototype-pollution guards, properties of primitives and inherited `Object.prototype` members are left out. For example, `"abc".length` is seen by lodash's `get` and `has`. lodash's `get` also reads inherited members such as `toString` or `constructor` while `has` checks own properties only: `get("toString", D)` answers a function without saving, and `s.push("constructor", 1)` throws. The model treats such keys like any other absent key. Deleting a built-in property of a string or sequence cannot succeed: on `{a: "abc"}` or `{a: [1]}`, `del("a.length")` makes lodash evaluate `delete` on that property, which answers false (a TypeError in strict code), while the model's `del` answers true.
- Json: numbers are unbounded integers. JavaScript doubles, fractions, precision loss beyond 2^53, NaN and Infinity are not modelled.
- Json: a file whose JSON root is not an object has no state in this model. The document root is always a mapping.
- Shorthands.Add: `+=` applied to a string, sequence or mapping does string concatenation in JavaScript. The model reports `Unmodelled` and saves nothing instead. `null` and booleans are coerced as JavaScript does.
- Shorthands.Subtract: `-=` applied to a string, sequence or mapping yields a parsed number or NaN. The model reports `Unmodelled` and saves nothing instead.
- `multiply` and `divide` are left out, because their results are fractions, Infinity and NaN.
- Persistence: JSON text parsing and serialisation, including the pretty-print indent, are not modelled. A successful save stores the document value itself, and a successful load returns it.
- Persistence: real file I/O is replaced by the abstract file and the attempt script. The directory side of `fixFilePath` (mkdirp.js) is left out. `fixFilePath` itself is modelled as never failing, though in the source an exception from it would escape without retry.
- Persistence.Load: the source retries without bound. The model's script is finite and ends with `Exhausted`. The stack exhaustion that unbounded recursion would eventually cause in Node is not modelled.
- Store.Run: an `update` updater is a pure function of the current value. Side effects of a user updater are not modelled; the shorthands' captured answers are modelled directly.
- `deleteDatabase` and the `isDeleted` flag are left out. This is an asynchronous unlink whose errors are swallowed.
- Debug logging, coloured output, and the process-wide default options (`setDefaultOptions`, and the merge that lets them override per-instance options) are left out. Construction reduces to `fixFilePath`.
- Several instances sharing one file concurrently are not modelled: each call here runs alone.

=== FILE: facade.dfy ===
/**
 * The store's public operations on an already loaded document, as pure
 * transitions: each yields the reply, the document to save, and whether a
 * save happens at all. Loading and saving themselves live in `Persistence`
 * and are composed with these steps in `Store`.
 */
module Facade {
  import opened Outcomes
  import opened Json
  import Paths

  /** What an operation answers, the document afterwards, and whether it saves. */
  datatype Step = Step(reply: Option<Value>, doc: Doc, wrote: bool)

  /**
   * `get(path, default)`: a value that is there, `null` included, is answered
   * without a save; otherwise the default (possibly undefined) is written at
   * the path, saved, and answered.
   */
  function Get(doc: Doc, path: Paths.Path, default: Option<Value>): (r: Step)
    ensures Paths.Has(doc, path) ==> r.reply == Paths.Get(doc, path) && !r.wrote && r.doc == doc
    ensures !Paths.Has(doc, path) ==> r.reply == default && r.wrote && Paths.Get(r.doc, path) == default
    ensures !Paths.Has(doc, path) ==> Paths.PrefixesAreMappings(r.doc, path)
    ensures Paths.KeepsOthers(doc, r.doc, path)
  {
    match Paths.Get(doc, path)
    case Some(v) => Step(Some(v), doc, false)
    case None =>
      Paths.GetPut(doc, path, default);
      Paths.PutFrame(doc, path, default);
      Paths.PutMakesPrefixes(doc, path, default);
      Step(default, Paths.Put(doc, path, default), true)
  }

  /**
   * `set(path, value)`: the value is placed at the path in the loaded
   * document, saved, and answered. Setting undefined saves the document with
   * the intermediate mappings created and the last key left out.
   */
  function Set(doc: Doc, path: Paths.Path, value: Option<Value>): (r: Step)
    ensures r.reply == value && r.wrote
    ensures Paths.Get(r.doc, path) == value
    ensures Paths.PrefixesAreMappings(r.doc, path)
    ensures Paths.KeepsOthers(doc, r.doc, path)
  {
    Paths.GetPut(doc, path, value);
    Paths.PutFrame(doc, path, value);
    Paths.PutMakesPrefixes(doc, path, value);
    Step(value, Paths.Put(doc, path, value), true)
  }

  /** Setting the value a path already holds still saves, but saves the same document. */
  lemma SetSameValue(doc: Doc, path: Paths.Path, value: Value)
    requires Paths.Get(doc, path) == Some(value)
    ensures Set(doc, path, Some(value)).doc == doc
  {
    Paths.PutExisting(doc, path, value);
  }

  /**
   * `del(path)`: the entry is removed and the document saved whether or not
   * anything was there; only the last key goes, so mappings on the way are
   * kept even when left empty. The answer is lodash's `unset` result, which
   * is true for every path through mappings, the absent ones included.
   */
  function Del(doc: Doc, path: Paths.Path): (r: Step)
    ensures r.reply == Some(Bool(true)) && r.wrote
    ensures !Paths.Has(r.doc, path)
    ensures r.doc == doc <==> !Paths.Has(doc, path)
    ensures Paths.KeepsPrefixes(doc, r.doc, path)
    ensures Paths.KeepsOthers(doc, r.doc, path)
  {
    Paths.UnsetRemoves(doc, path);
    Paths.UnsetFrame(doc, path);
    Paths.UnsetKeepsPrefixes(doc, path);
    Paths.UnsetChangesIff(doc, path);
    Step(Some(Bool(true)), Paths.Unset(doc, path), true)
  }

  /** `has(path)`: whether a value is there; never saves. */
  function Has(doc: Doc, path: Paths.Path): (r: Step)
    ensures r.reply == Some(Bool(Paths.Get(doc, path).Some?))
    ensures !r.wrote && r.doc == doc
  {
    Step(Some(Bool(Paths.Has(doc, path))), doc, false)
  }

  /** `clear()`: saves the empty mapping whatever was there, and answers it. */
  function Clear(doc: Doc): (r: Step)
    ensures r.reply == Some(Obj(map[])) && r.wrote
    ensures forall p: Paths.Path {:trigger Paths.Get(r.doc, p)} :: Paths.Get(r.doc, p) == None
  {
    Step(Some(Obj(map[])), map[], true)
  }

  /** `getAll()`: the loaded document itself; never saves. */
  function GetAll(doc: Doc): (r: Step)
    ensures r.reply == Some(Obj(doc)) && !r.wrote && r.doc == doc
  {
    Step(Some(Obj(doc)), doc, false)
  }

  /**
   * `update(path, updater)`: the updater is applied once to the current
   * value; if it throws nothing is saved, otherwise its result is written
   * and saved, and the answer is the value read back at the path.
   */
  function Update(doc: Doc, path: Paths.Path, updater: Option<Value> -> Result<Option<Value>>): (r: Result<Step>)
    ensures updater(Paths.Get(doc, path)).Err? ==> r == Err(updater(Paths.Get(doc, path)).error)
    ensures updater(Paths.Get(doc, path)).Ok? ==>
      && r.Ok? && r.value.wrote
      && r.value.reply == updater(Paths.Get(doc, path)).value
      && Paths.Get(r.value.doc, path) == r.value.reply
      && Paths.PrefixesAreMappings(r.value.doc, path)
      && Paths.KeepsOthers(doc, r.value.doc, path)
  {
    match updater(Paths.Get(doc, path))
    case Err(e) => Err(e)
    case Ok(v) =>
      var after := Paths.Put(doc, path, v);
      Paths.GetPut(doc, path, v);
      Paths.PutFrame(doc, path, v);
      Paths.PutMakesPrefixes(doc, path, v);
      Ok(Step(Paths.Get(after, path), after, true))
  }

  /** Read after write across two calls: `set` then `get` answers the value without saving. */
  lemma SetThenGet(doc: Doc, path: Paths.Path, value: Value, default: Option<Value>)
    ensures Get(Set(doc, path, Some(value)).doc, path, default) == Step(Some(value), Set(doc, path, Some(value)).doc, false)
  {
  }

  /** Defaults persist: `get(path, d)` on an absent path, then `get(path)`, both answer `d`. */
  lemma DefaultPersists(doc: Doc, path: Paths.Path, d: Value, default: Option<Value>)
    requires !Paths.Has(doc, path)
    ensures Get(doc, path, Some(d)).reply == Some(d)
    ensures Get(Get(doc, path, Some(d)).doc, path, default) == Step(Some(d), Get(doc, path, Some(d)).doc, false)
  {
  }

  /** `del` then `has` answers false. */
  lemma DelThenHas(doc: Doc, path: Paths.Path)
    ensures Has(Del(doc, path).doc, path).reply == Some(Bool(false))
  {
  }

  /**
   * A session from an empty store: set `user.name` and `user.age`, read the
   * whole document, delete `user.age`, check it is gone, then read it with
   * default 0, which writes the 0 back.
   */
  lemma UserSession()
    ensures
      var name := ["user", "name"];
      var age := ["user", "age"];
      var d1 := Set(map[], name, Some(Str("Ann"))).doc;
      var d2 := Set(d1, age, Some(Int(30))).doc;
      var d3 := Del(d2, age).doc;
      var g := Get(d3, age, Some(Int(0)));
      && GetAll(d2).reply == Some(Obj(map["user" := Obj(map["name" := Str("Ann"), "age" := Int(30)])]))
      && Has(d3, age).reply == Some(Bool(false))
      && g.reply == Some(Int(0)) && g.wrote
      && g.doc == map["user" := Obj(map["name" := Str("Ann"), "age" := Int(0)])]
  {
    SessionSets();
    SessionDel();
    SessionGet();
  }

  /** The two writes of `UserSession`. */
  lemma SessionSets()
    ensures Set(map[], ["user", "name"], Some(Str("Ann"))).doc == map["user" := Obj(map["name" := Str("Ann")])]
    ensures Set(map["user" := Obj(map["name" := Str("Ann")])], ["user", "age"], Some(Int(30))).doc
      == map["user" := Obj(map["name" := Str("Ann"), "age" := Int(30)])]
  {
  }

  /** The delete of `UserSession`. */
  lemma SessionDel()
    ensures Del(map["user" := Obj(map["name" := Str("Ann"), "age" := Int(30)])], ["user", "age"]).doc
      == map["user" := Obj(map["name" := Str("Ann")])]
  {
    var inner := map["name" := Str("Ann"), "age" := Int(30)];
    assert (inner - {"age"}).Keys == {"name"};
    assert inner - {"age"} == map["name" := Str("Ann")];
  }

  /** The read with a default at the end of `UserSession`. */
  lemma SessionGet()
    ensures Get(map["user" := Obj(map["name" := Str("Ann")])], ["user", "age"], Some(Int(0)))
      == Step(Some(Int(0)), map["user" := Obj(map["name" := Str("Ann"), "age" := Int(0)])], true)
  {
  }
}

=== FILE: json.dfy ===
/** The JSON values a store document is made of. */
module Json {
  import opened Outcomes

  /** A parsed JSON value. Numbers are integers (see README, "Left out"). */
  datatype Value =
    | Null
    | Bool(b: bool)
    | Int(n: int)
    | Str(s: string)
    | Arr(items: seq<Value>)
    | Obj(fields: map<string, Value>)

  /** A whole document: its root is always a mapping. */
  type Doc = map<string, Value>

  /**
   * JavaScript's ToBoolean, with `None` standing for `undefined`: the falsy
   * JSON values are exactly undefined, `null`, `false`, `0` and `""`.
   */
  function Truthy(v: Option<Value>): (b: bool)
    ensures !b <==> v in {None, Some(Null), Some(Bool(false)), Some(Int(0)), Some(Str(""))}
  {
    match v
    case None => false
    case Some(Null) => false
    case Some(Bool(x)) => x
    case Some(Int(n)) => n != 0
    case Some(Str(s)) => s != ""
    case Some(Arr(_)) => true
    case Some(Obj(_)) => true
  }
}

=== FILE: outcomes.dfy ===
/** Option, the error kinds of the store, and Result over them. */
module Outcomes {

  /** `None` stands for JavaScript's `undefined`: a value that is not there. */
  datatype Option<+T> = None | Some(value: T)

  /** Every way a store operation can end without a value. */
  datatype Error =
    | IOError      // the file could not be read or written
    | ParseError   // the file content is not valid JSON
    | NotAnArray   // a sequence helper met a truthy value that is not a sequence
    | Unmodelled   // JavaScript coercion of a string, sequence or mapping by `+=`/`-=`
    | Exhausted    // the environment script has no outcome left for another attempt

  datatype Result<+T> = Ok(value: T) | Err(error: Error)

  /** Like Result, for steps that produce nothing. */
  datatype Status = Pass | Fail(error: Error)
}

=== FILE: paths.dfy ===
/**
 * Path resolution over a document: the plain-mapping part of lodash's
 * `get`, `set`, `unset` and `has`, as the store uses them.
 *
 * A path is the list of keys a dotted string splits into. Only mappings are
 * traversed: any other value met before the last key reads as absent, and a
 * write replaces it with a fresh mapping.
 */
module Paths {
  import opened Outcomes
  import opened Json

  /** A split key path; lodash always yields at least one key. */
  type Path = p: seq<string> | |p| > 0 witness [""]

  /** Neither path is a prefix of the other: they address disjoint parts. */
  predicate Independent(p: Path, q: Path)
  {
    !(p <= q) && !(q <= p)
  }

  /** Independent paths that share their first key go on, independent, below it. */
  lemma IndependentTails(p: Path, q: Path)
    requires Independent(p, q) && p[0] == q[0]
    ensures |p| > 1 && |q| > 1 && Independent(p[1..], q[1..])
  {
  }

  /** `after` holds what `before` holds at every path independent of `p`. */
  ghost predicate KeepsOthers(before: Doc, after: Doc, p: Path)
  {
    forall q: Path {:trigger Get(after, q)} :: Independent(p, q) ==> Get(after, q) == Get(before, q)
  }

  /** A mapping is found at `p`. */
  predicate HoldsMapping(doc: Doc, p: Path)
  {
    Get(doc, p).Some? && Get(doc, p).value.Obj?
  }

  /** Every proper prefix of `p` holds a mapping in `doc`. */
  ghost predicate PrefixesAreMappings(doc: Doc, p: Path)
  {
    forall i :: 0 < i < |p| ==> HoldsMapping(doc, p[..i])
  }

  /** Every proper prefix of `p` holds a mapping in `after` exactly when it does in `before`. */
  ghost predicate KeepsPrefixes(before: Doc, after: Doc, p: Path)
  {
    forall i :: 0 < i < |p| ==> (HoldsMapping(after, p[..i]) <==> HoldsMapping(before, p[..i]))
  }

  /**
   * The value at `path`, or `None` when some key on the way is missing.
   * Only mappings are looked into: a value is found only under a present
   * first key that, unless it is the last key, holds a mapping.
   */
  function Get(doc: Doc, path: Path): (r: Option<Value>)
    ensures r.Some? ==> path[0] in doc
    ensures r.Some? && |path| > 1 ==> doc[path[0]].Obj?
    decreases |path|
  {
    var key := path[0];
    if key !in doc then None
    else if |path| == 1 then Some(doc[key])
    else
      match doc[key]
      case Obj(m) => Get(m, path[1..])
      case _ => None
  }

  /**
   * Whether every key of `path` is present, the last one possibly holding
   * `null`: exactly when `Get` finds a value.
   */
  function Has(doc: Doc, path: Path): (b: bool)
    ensures b <==> Get(doc, path).Some?
    decreases |path|
  {
    var key := path[0];
    && key in doc
    && (|path| == 1 || (doc[key].Obj? && Has(doc[key].fields, path[1..])))
  }

  /** The mapping under `key`, or an empty one when there is none: where `Put` descends. */
  function Child(doc: Doc, key: string): (r: Doc)
  {
    if key in doc && doc[key].Obj? then doc[key].fields else map[]
  }

  /**
   * `v` placed at `path`, missing or non-mapping intermediates replaced by
   * fresh mappings. Placing `None` (undefined) leaves the last key out, which
   * is what the saved document holds: JSON has no `undefined`.
   */
  function Put(doc: Doc, path: Path, v: Option<Value>): (r: Doc)
    ensures v.Some? || |path| > 1 ==> r.Keys == doc.Keys + {path[0]}
    ensures v.None? && |path| == 1 ==> r.Keys == doc.Keys - {path[0]}
    decreases |path|
  {
    var key := path[0];
    if |path| == 1 then
      match v
      case Some(x) => doc[key := x]
      case None => doc - {key}
    else
      doc[key := Obj(Put(Child(doc, key), path[1..], v))]
  }

  /** The document with the entry at `path` removed; nothing is created on the way. */
  function Unset(doc: Doc, path: Path): (r: Doc)
    ensures |path| == 1 ==> r.Keys == doc.Keys - {path[0]}
    ensures |path| > 1 ==> r.Keys == doc.Keys
    decreases |path|
  {
    var key := path[0];
    if |path| == 1 then doc - {key}
    else if key in doc && doc[key].Obj? then doc[key := Obj(Unset(doc[key].fields, path[1..]))]
    else doc
  }

  /** Read after write: what was put at a path is read back from it. */
  lemma {:induction false} GetPut(doc: Doc, path: Path, v: Option<Value>)
    ensures Get(Put(doc, path, v), path) == v
    decreases |path|
  {
    if |path| > 1 {
      var key := path[0];
      GetPut(Child(doc, key), path[1..], v);
    }
  }

  /** A write at one path leaves every independent path as it was. */
  lemma {:induction false} GetPutIndependent(doc: Doc, p: Path, q: Path, v: Option<Value>)
    requires Independent(p, q)
    ensures Get(Put(doc, p, v), q) == Get(doc, q)
    decreases |p|
  {
    if p[0] == q[0] {
      IndependentTails(p, q);
      var key := p[0];
      GetPutIndependent(Child(doc, key), p[1..], q[1..], v);
    }
  }

  /** Writing the value a path already holds changes nothing. */
  lemma {:induction false} PutExisting(doc: Doc, path: Path, v: Value)
    requires Get(doc, path) == Some(v)
    ensures Put(doc, path, Some(v)) == doc
    decreases |path|
  {
    if |path| > 1 {
      var key := path[0];
      PutExisting(doc[key].fields, path[1..], v);
    }
  }

  /** The last write to a path wins: a second write hides the first. */
  lemma {:induction false} PutPut(doc: Doc, path: Path, v: Option<Value>, w: Option<Value>)
    ensures Put(Put(doc, path, v), path, w) == Put(doc, path, w)
    decreases |path|
  {
    if |path| == 1 {
      PutPutLastKey(doc, path, v, w);
    } else {
      var key := path[0];
      var once := Put(doc, path, v);
      assert Child(once, key) == Put(Child(doc, key), path[1..], v);
      PutPut(Child(doc, key), path[1..], v, w);
    }
  }

  /** `PutPut` for a path of one key: two assignments to the same key. */
  lemma PutPutLastKey(doc: Doc, path: Path, v: Option<Value>, w: Option<Value>)
    requires |path| == 1
    ensures Put(Put(doc, path, v), path, w) == Put(doc, path, w)
  {
  }

  /** After unset the path is no longer there. */
  lemma {:induction false} UnsetRemoves(doc: Doc, path: Path)
    ensures !Has(Unset(doc, path), path)
    decreases |path|
  {
    var key := path[0];
    if |path| > 1 && key in doc && doc[key].Obj? {
      UnsetRemoves(doc[key].fields, path[1..]);
    }
  }

  /** Unset changes the document exactly when the path was there. */
  lemma {:induction false} UnsetChangesIff(doc: Doc, path: Path)
    ensures Unset(doc, path) == doc <==> !Has(doc, path)
    decreases |path|
  {
    var key := path[0];
    if |path| > 1 && key in doc && doc[key].Obj? {
      UnsetChangesIff(doc[key].fields, path[1..]);
      if Unset(doc, path) == doc {
        assert Obj(Unset(doc[key].fields, path[1..])) == doc[key];
      }
    }
    if Has(doc, path) {
      UnsetRemoves(doc, path);
    }
  }

  /** Unset leaves every independent path as it was. */
  lemma {:induction false} GetUnsetIndependent(doc: Doc, p: Path, q: Path)
    requires Independent(p, q)
    ensures Get(Unset(doc, p), q) == Get(doc, q)
    decreases |p|
  {
    if p[0] == q[0] {
      IndependentTails(p, q);
      var key := p[0];
      if key in doc && doc[key].Obj? {
        GetUnsetIndependent(doc[key].fields, p[1..], q[1..]);
      }
    }
  }

  /**
   * On a path that is there, unset and writing `undefined` save the same
   * document; they differ only where unset would have to create mappings.
   */
  lemma {:induction false} UnsetIsPutUndefined(doc: Doc, path: Path)
    requires Has(doc, path)
    ensures Unset(doc, path) == Put(doc, path, None)
    decreases |path|
  {
    if |path| > 1 {
      UnsetIsPutUndefined(doc[path[0]].fields, path[1..]);
    }
  }

  /** A write at a path keeps every independent path: the rest of the document survives. */
  lemma PutFrame(doc: Doc, p: Path, v: Option<Value>)
    ensures KeepsOthers(doc, Put(doc, p, v), p)
  {
    forall q: Path | Independent(p, q)
      ensures Get(Put(doc, p, v), q) == Get(doc, q)
    {
      GetPutIndependent(doc, p, q, v);
    }
  }

  /** Unset at a path keeps every independent path. */
  lemma UnsetFrame(doc: Doc, p: Path)
    ensures KeepsOthers(doc, Unset(doc, p), p)
  {
    forall q: Path | Independent(p, q)
      ensures Get(Unset(doc, p), q) == Get(doc, q)
    {
      GetUnsetIndependent(doc, p, q);
    }
  }

  /**
   * A write leaves a mapping at every proper prefix of its path: missing
   * and non-mapping intermediates have been replaced by mappings.
   */
  lemma {:induction false} PutMakesPrefixes(doc: Doc, p: Path, v: Option<Value>)
    ensures PrefixesAreMappings(Put(doc, p, v), p)
    decreases |p|
  {
    if |p| > 1 {
      var key := p[0];
      PutMakesPrefixes(Child(doc, key), p[1..], v);
      forall i | 0 < i < |p|
        ensures HoldsMapping(Put(doc, p, v), p[..i])
      {
        if i > 1 {
          assert p[..i][1..] == p[1..][..i - 1];
        }
      }
    }
  }

  /**
   * Unset removes only the last key: every mapping on the way, one left
   * empty included, is still a mapping afterwards, and none is created.
   */
  lemma {:induction false} UnsetKeepsPrefixes(doc: Doc, p: Path)
    ensures KeepsPrefixes(doc, Unset(doc, p), p)
    decreases |p|
  {
    var key := p[0];
    if |p| > 1 && key in doc && doc[key].Obj? {
      UnsetKeepsPrefixes(doc[key].fields, p[1..]);
      forall i | 0 < i < |p|
        ensures HoldsMapping(Unset(doc, p), p[..i]) <==> HoldsMapping(doc, p[..i])
      {
        if i > 1 {
          assert p[..i][1..] == p[1..][..i - 1];
        }
      }
    }
  }
}

=== FILE: persistence.dfy ===
/**
 * The backing file and the load/save protocol with its failure and retry
 * policy (`getDB`, `setDB`, `fixFilePath`).
 *
 * The file is abstract: missing, holding text that does not parse, or
 * holding a document. What the file system does on each attempt is a
 * script of outcomes; every pass through `getDB` or `setDB` takes the next
 * one. The source retries without bound when suppression is on; here an
 * empty script ends the retrying with `Exhausted`.
 */
module Persistence {
  import opened Outcomes
  import opened Json

  datatype File = Absent | Garbage | Holds(doc: Doc)

  /**
   * What the file system does with one read or write attempt: let it
   * through, fail it before the file is touched, or fail a write after
   * opening the file for writing has already emptied it (`writeFileSync`
   * truncates first). A read fails the same way under both failures.
   */
  datatype Attempt = Succeeds | Faults | Truncates

  datatype World = World(file: File, script: seq<Attempt>)

  datatype Loaded = Loaded(result: Result<Doc>, world: World)

  datatype Saved = Saved(status: Status, world: World)

  /** `fixFilePath`: creates the file as `{}` when it is missing; existing content is left alone. */
  function FixFilePath(f: File): (r: File)
    ensures !r.Absent?
    ensures f.Absent? ==> r == Holds(map[])
    ensures !f.Absent? ==> r == f
  {
    if f.Absent? then Holds(map[]) else f
  }

  /** `fixFilePath` twice is `fixFilePath` once. */
  lemma FixFilePathIdempotent(f: File)
    ensures FixFilePath(FixFilePath(f)) == FixFilePath(f)
  {
  }

  /**
   * `getDB`: read, then parse. A failed read (a fault, or a missing file)
   * runs `fixFilePath` and then rethrows, or retries under suppression; a
   * failed parse rethrows or retries without repairing anything.
   */
  function Load(suppress: bool, w: World): (l: Loaded)
    ensures l.result.Ok? ==> l.world.file == Holds(l.result.value)
    ensures l.world.file == w.file || (w.file.Absent? && l.world.file == Holds(map[]))
    ensures l.result.Ok? && !w.file.Absent? ==> w.file == Holds(l.result.value)
    ensures l.result.Ok? && w.file.Absent? ==> l.result.value == map[]
    ensures |l.world.script| <= |w.script|
    ensures |w.script| > 0 ==> |l.world.script| < |w.script|
    ensures !suppress && |w.script| > 0 ==> l.world.script == w.script[1..]
    ensures suppress && l.result.Err? ==> l.result.error == Exhausted && l.world.script == []
    decreases |w.script|
  {
    if |w.script| == 0 then Loaded(Err(Exhausted), w)
    else
      var rest := w.script[1..];
      if w.script[0] != Succeeds || w.file.Absent? then
        var next := World(FixFilePath(w.file), rest);
        if !suppress then Loaded(Err(IOError), next) else Load(suppress, next)
      else if w.file.Garbage? then
        var next := World(w.file, rest);
        if !suppress then Loaded(Err(ParseError), next) else Load(suppress, next)
      else Loaded(Ok(w.file.doc), World(w.file, rest))
  }

  /**
   * `setDB`: writes the whole document over the file; a failed write
   * rethrows, or retries with the same document under suppression. A write
   * that fails after truncating leaves a file that does not parse.
   */
  function Save(suppress: bool, w: World, doc: Doc): (s: Saved)
    ensures s.status.Pass? ==> s.world.file == Holds(doc)
    ensures s.status.Fail? ==> s.world.file == w.file || s.world.file == Garbage
    ensures s.status.Fail? && Truncates !in w.script ==> s.world.file == w.file
    ensures |w.script| > 0 ==> |s.world.script| < |w.script|
    ensures !suppress && |w.script| > 0 ==> s.world.script == w.script[1..]
    ensures suppress && s.status.Fail? ==> s.status.error == Exhausted && s.world.script == []
    decreases |w.script|
  {
    if |w.script| == 0 then Saved(Fail(Exhausted), w)
    else if w.script[0] == Succeeds then Saved(Pass, World(Holds(doc), w.script[1..]))
    else
      var next := World(if w.script[0] == Truncates then Garbage else w.file, w.script[1..]);
      if !suppress then Saved(Fail(IOError), next) else Save(suppress, next, doc)
  }

  /** Without suppression the first failure surfaces, of the kind that occurred. */
  lemma LoadUnsuppressedFirstAttempt(w: World)
    requires |w.script| > 0
    ensures w.script[0] != Succeeds || w.file.Absent? ==>
      Load(false, w) == Loaded(Err(IOError), World(FixFilePath(w.file), w.script[1..]))
    ensures w.script[0] == Succeeds && w.file.Garbage? ==>
      Load(false, w) == Loaded(Err(ParseError), World(Garbage, w.script[1..]))
    ensures w.script[0] == Succeeds && w.file.Holds? ==>
      Load(false, w) == Loaded(Ok(w.file.doc), World(w.file, w.script[1..]))
  {
  }

  /** Under suppression a document file loads exactly when some attempt gets through. */
  lemma {:induction false} LoadSuppressedHolds(w: World)
    requires w.file.Holds?
    ensures Load(true, w).result.Ok? <==> Succeeds in w.script
    ensures Load(true, w).result.Ok? ==> Load(true, w).result.value == w.file.doc
    decreases |w.script|
  {
    if |w.script| > 0 && w.script[0] != Succeeds {
      LoadSuppressedHolds(World(w.file, w.script[1..]));
      assert w.script == [w.script[0]] + w.script[1..];
    }
  }

  /** Under suppression a missing file is created as `{}` and loads once a later attempt gets through. */
  lemma LoadSuppressedAbsent(w: World)
    requires w.file.Absent? && |w.script| > 0
    ensures Load(true, w).result.Ok? <==> Succeeds in w.script[1..]
    ensures Load(true, w).result.Ok? ==> Load(true, w).result.value == map[]
  {
    LoadSuppressedHolds(World(Holds(map[]), w.script[1..]));
  }

  /** Under suppression a file that does not parse is never repaired, so loading never succeeds. */
  lemma {:induction false} LoadSuppressedGarbage(w: World)
    requires w.file.Garbage?
    ensures Load(true, w) == Loaded(Err(Exhausted), World(Garbage, []))
    decreases |w.script|
  {
    if |w.script| > 0 {
      LoadSuppressedGarbage(World(w.file, w.script[1..]));
    }
  }

  /** Under suppression a save lands exactly when some attempt gets through. */
  lemma {:induction false} SaveSuppressed(w: World, doc: Doc)
    ensures Save(true, w, doc).status.Pass? <==> Succeeds in w.script
    decreases |w.script|
  {
    if |w.script| > 0 && w.script[0] != Succeeds {
      SaveSuppressed(World(if w.script[0] == Truncates then Garbage else w.file, w.script[1..]), doc);
      assert w.script == [w.script[0]] + w.script[1..];
    }
  }

  /**
   * Without suppression a write makes one attempt: a failure throws, with
   * the file untouched or, after truncation, no longer parsing.
   */
  lemma SaveUnsuppressedFirstAttempt(w: World, doc: Doc)
    requires |w.script| > 0
    ensures w.script[0] == Faults ==> Save(false, w, doc) == Saved(Fail(IOError), World(w.file, w.script[1..]))
    ensures w.script[0] == Truncates ==> Save(false, w, doc) == Saved(Fail(IOError), World(Garbage, w.script[1..]))
    ensures w.script[0] == Succeeds ==> Save(false, w, doc) == Saved(Pass, World(Holds(doc), w.script[1..]))
  {
  }

  /** A write that fails after truncating breaks the next load: it no longer parses. */
  lemma TruncatedWriteBreaksLoad(d: Doc, doc: Doc)
    ensures
      var s := Save(false, World(Holds(d), [Truncates, Succeeds]), doc);
      && s.status == Fail(IOError)
      && Load(false, s.world) == Loaded(Err(ParseError), World(Garbage, []))
  {
  }

  /** The position of the first attempt that gets through. */
  function FirstSuccess(script: seq<Attempt>): (i: nat)
    requires Succeeds in script
    ensures i < |script| && script[i] == Succeeds
    ensures forall j :: 0 <= j < i ==> script[j] != Succeeds
  {
    if script[0] == Succeeds then 0
    else
      assert Succeeds in script[1..] by {
        var k :| 0 <= k < |script| && script[k] == Succeeds;
        assert script[1..][k - 1] == Succeeds;
      }
      FirstSuccess(script[1..]) + 1
  }

  /** The attempts after the first success hold one success fewer than the script. */
  lemma SuccessesAfterFirst(script: seq<Attempt>)
    requires Succeeds in script
    ensures multiset(script[FirstSuccess(script) + 1..])[Succeeds] == multiset(script)[Succeeds] - 1
  {
    var i := FirstSuccess(script);
    assert script == script[..i] + [script[i]] + script[i + 1..];
    assert multiset(script[..i])[Succeeds] == 0;
  }

  /**
   * Under suppression a save retries exactly until the first attempt that
   * gets through: it lands there, and the attempts after it are left for
   * whatever the call does next.
   */
  lemma {:induction false} SaveStopsAtFirstSuccess(w: World, doc: Doc)
    requires Succeeds in w.script
    ensures Save(true, w, doc) == Saved(Pass, World(Holds(doc), w.script[FirstSuccess(w.script) + 1..]))
    decreases |w.script|
  {
    if w.script[0] != Succeeds {
      var next := World(if w.script[0] == Truncates then Garbage else w.file, w.script[1..]);
      assert w.script == [w.script[0]] + next.script;
      assert FirstSuccess(w.script) == FirstSuccess(next.script) + 1;
      SaveStopsAtFirstSuccess(next, doc);
    }
  }

  /**
   * Under suppression a load of a document file retries exactly until the
   * first attempt that gets through, and answers the document there.
   */
  lemma {:induction false} LoadStopsAtFirstSuccess(w: World)
    requires w.file.Holds? && Succeeds in w.script
    ensures Load(true, w) == Loaded(Ok(w.file.doc), World(w.file, w.script[FirstSuccess(w.script) + 1..]))
    decreases |w.script|
  {
    if w.script[0] != Succeeds {
      var next := World(w.file, w.script[1..]);
      assert w.script == [w.script[0]] + next.script;
      assert FirstSuccess(w.script) == FirstSuccess(next.script) + 1;
      LoadStopsAtFirstSuccess(next);
    }
  }

  /**
   * A missing file is the exception: its first attempt always fails and
   * creates the file as `{}`; from then on the load stops at the first
   * attempt that gets through.
   */
  lemma LoadAbsentStopsAtFirstSuccess(w: World)
    requires w.file.Absent? && |w.script| > 0 && Succeeds in w.script[1..]
    ensures
      var rest := w.script[1..];
      Load(true, w) == Loaded(Ok(map[]), World(Holds(map[]), rest[FirstSuccess(rest) + 1..]))
  {
    LoadStopsAtFirstSuccess(World(Holds(map[]), w.script[1..]));
  }
}

=== FILE: shorthands.dfy ===
/**
 * The `s.*` shorthands: sequence helpers (push, unshift, shift, pop, splice)
 * and integer helpers (add, subtract), each built on `update`.
 */
module Shorthands {
  import opened Outcomes
  import opened Json
  import Paths
  import Facade

  /** A truthy value that is not a sequence: the sequence helpers throw on it. */
  predicate Foreign(v: Option<Value>)
  {
    Truthy(v) && !(v.Some? && v.value.Arr?)
  }

  /** The sequence a helper starts from: the sequence there, or `[]` for a falsy value. */
  function Items(v: Option<Value>): (r: seq<Value>)
  {
    if v.Some? && v.value.Arr? then v.value.items else []
  }

  /**
   * The container check every sequence helper runs first: a sequence is
   * used as it is, any falsy value (undefined, null, 0, "", false) becomes
   * `[]`, and anything else is a usage error.
   */
  function Container(v: Option<Value>): (r: Result<seq<Value>>)
    ensures !Truthy(v) ==> r == Ok([])
    ensures v.Some? && v.value.Arr? ==> r == Ok(v.value.items)
    ensures Foreign(v) ==> r == Err(NotAnArray)
  {
    if v.Some? && v.value.Arr? then Ok(v.value.items)
    else if Truthy(v) then Err(NotAnArray)
    else Ok([])
  }

  /** What one run of a sequence updater yields: the new sequence and the captured answer. */
  datatype Edit = Edit(items: seq<Value>, captured: Option<Value>)

  /** The updater a sequence helper hands to `update`. */
  function SequenceUpdater(edit: seq<Value> -> Edit, v: Option<Value>): (r: Result<Option<Value>>)
    ensures Foreign(v) ==> r == Err(NotAnArray)
    ensures !Foreign(v) ==> r == Ok(Some(Arr(edit(Items(v)).items)))
  {
    match Container(v)
    case Err(e) => Err(e)
    case Ok(items) => Ok(Some(Arr(edit(items).items)))
  }

  /**
   * A sequence helper: `update` with an updater that checks the container,
   * applies `edit` once, and captures its answer; the helper answers that
   * captured value rather than what `update` reads back.
   */
  function EditAt(doc: Doc, path: Paths.Path, edit: seq<Value> -> Edit): (r: Result<Facade.Step>)
    ensures r.Err? <==> Foreign(Paths.Get(doc, path))
    ensures r.Err? ==> r.error == NotAnArray
    ensures r.Ok? ==>
      var e := edit(Items(Paths.Get(doc, path)));
      && r.value.reply == e.captured && r.value.wrote
      && Paths.Get(r.value.doc, path) == Some(Arr(e.items))
      && Paths.PrefixesAreMappings(r.value.doc, path)
      && Paths.KeepsOthers(doc, r.value.doc, path)
  {
    var current := Paths.Get(doc, path);
    match Facade.Update(doc, path, v => SequenceUpdater(edit, v))
    case Err(e) => Err(e)
    case Ok(step) => Ok(Facade.Step(edit(Items(current)).captured, step.doc, step.wrote))
  }

  /**
   * The arguments of `push`/`unshift` as saved: an undefined argument is an
   * `undefined` element, which JSON writes as `null`.
   */
  function AsElements(values: seq<Option<Value>>): (r: seq<Value>)
    ensures |r| == |values|
    ensures forall i :: 0 <= i < |values| ==> r[i] == (if values[i].Some? then values[i].value else Null)
  {
    if values == [] then []
    else [if values[0].Some? then values[0].value else Null] + AsElements(values[1..])
  }

  /** `s.push(path, ...values)`: appends in argument order, answers the new length. */
  function Push(doc: Doc, path: Paths.Path, values: seq<Option<Value>>): (r: Result<Facade.Step>)
    ensures r.Err? <==> Foreign(Paths.Get(doc, path))
    ensures r.Err? ==> r.error == NotAnArray
    ensures r.Ok? ==>
      var xs := Items(Paths.Get(doc, path));
      && r.value.reply == Some(Int(|xs| + |values|)) && r.value.wrote
      && Paths.Get(r.value.doc, path) == Some(Arr(xs + AsElements(values)))
      && Paths.KeepsOthers(doc, r.value.doc, path)
  {
    EditAt(doc, path, items => Edit(items + AsElements(values), Some(Int(|items + AsElements(values)|))))
  }

  /** `s.unshift(path, ...values)`: prepends in argument order, answers the new length. */
  function Unshift(doc: Doc, path: Paths.Path, values: seq<Option<Value>>): (r: Result<Facade.Step>)
    ensures r.Err? <==> Foreign(Paths.Get(doc, path))
    ensures r.Err? ==> r.error == NotAnArray
    ensures r.Ok? ==>
      var xs := Items(Paths.Get(doc, path));
      && r.value.reply == Some(Int(|xs| + |values|)) && r.value.wrote
      && Paths.Get(r.value.doc, path) == Some(Arr(AsElements(values) + xs))
      && Paths.KeepsOthers(doc, r.value.doc, path)
  {
    EditAt(doc, path, items => Edit(AsElements(values) + items, Some(Int(|AsElements(values) + items|))))
  }

  /** `s.shift(path)`: removes and answers the first element; undefined when empty. */
  function Shift(doc: Doc, path: Paths.Path): (r: Result<Facade.Step>)
    ensures r.Err? <==> Foreign(Paths.Get(doc, path))
    ensures r.Err? ==> r.error == NotAnArray
    ensures r.Ok? ==>
      var xs := Items(Paths.Get(doc, path));
      && r.value.wrote && Paths.KeepsOthers(doc, r.value.doc, path)
      && Paths.Get(r.value.doc, path).Some? && Paths.Get(r.value.doc, path).value.Arr?
      && var rest := Paths.Get(r.value.doc, path).value.items;
      && (xs == [] ==> r.value.reply == None && rest == [])
      && (xs != [] ==> r.value.reply.Some? && [r.value.reply.value] + rest == xs)
  {
    EditAt(doc, path, items => if items == [] then Edit([], None) else Edit(items[1..], Some(items[0])))
  }

  /** `s.pop(path)`: removes and answers the last element; undefined when empty. */
  function Pop(doc: Doc, path: Paths.Path): (r: Result<Facade.Step>)
    ensures r.Err? <==> Foreign(Paths.Get(doc, path))
    ensures r.Err? ==> r.error == NotAnArray
    ensures r.Ok? ==>
      var xs := Items(Paths.Get(doc, path));
      && r.value.wrote && Paths.KeepsOthers(doc, r.value.doc, path)
      && Paths.Get(r.value.doc, path).Some? && Paths.Get(r.value.doc, path).value.Arr?
      && var rest := Paths.Get(r.value.doc, path).value.items;
      && (xs == [] ==> r.value.reply == None && rest == [])
      && (xs != [] ==> r.value.reply.Some? && rest + [r.value.reply.value] == xs)
  {
    EditAt(doc, path, items => if items == [] then Edit([], None) else Edit(items[..|items| - 1], Some(items[|items| - 1])))
  }

  /** JavaScript's `splice` start: negative counts from the end; clamped to the sequence. */
  function SpliceStart(len: nat, start: int): (s: nat)
    ensures s <= len
    ensures 0 <= start <= len ==> s == start
    ensures -(len as int) <= start < 0 ==> s == len + start
    ensures start > len ==> s == len
    ensures start < -(len as int) ==> s == 0
  {
    if start < 0 then (if len + start < 0 then 0 else len + start)
    else if start < len then start else len
  }

  /** JavaScript's `splice` delete count: clamped between 0 and what follows the start. */
  function SpliceCount(len: nat, s: nat, count: int): (c: nat)
    requires s <= len
    ensures c <= len - s
    ensures 0 <= count <= len - s ==> c == count
    ensures count < 0 ==> c == 0
    ensures count > len - s ==> c == len - s
  {
    if count < 0 then 0 else if count < len - s then count else len - s
  }

  /** The sequence edit `splice` makes: the run it removes and what stays, which reassemble to the input. */
  function SpliceEdit(items: seq<Value>, start: int, count: int): (e: Edit)
    ensures e.captured.Some? && e.captured.value.Arr?
    ensures |e.captured.value.items| == SpliceCount(|items|, SpliceStart(|items|, start), count)
    ensures SpliceStart(|items|, start) <= |e.items|
    ensures
      var s := SpliceStart(|items|, start);
      e.items[..s] + e.captured.value.items + e.items[s..] == items
  {
    var s := SpliceStart(|items|, start);
    var c := SpliceCount(|items|, s, count);
    var kept := items[..s] + items[s + c..];
    assert kept[..s] == items[..s];
    assert kept[s..] == items[s + c..];
    assert items == items[..s] + items[s..s + c] + items[s + c..];
    Edit(kept, Some(Arr(items[s..s + c])))
  }

  /**
   * `s.splice(path, start, count)`: removes `count` elements from `start`
   * and answers them. The helper always passes both arguments, so an
   * omitted one arrives as undefined, which JavaScript reads as 0.
   */
  function Splice(doc: Doc, path: Paths.Path, start: int, count: int): (r: Result<Facade.Step>)
    ensures r.Err? <==> Foreign(Paths.Get(doc, path))
    ensures r.Err? ==> r.error == NotAnArray
    ensures r.Ok? ==>
      var xs := Items(Paths.Get(doc, path));
      var s := SpliceStart(|xs|, start);
      && r.value.wrote && Paths.KeepsOthers(doc, r.value.doc, path)
      && r.value.reply.Some? && r.value.reply.value.Arr?
      && Paths.Get(r.value.doc, path).Some? && Paths.Get(r.value.doc, path).value.Arr?
      && var removed := r.value.reply.value.items;
      && var kept := Paths.Get(r.value.doc, path).value.items;
      && |removed| == SpliceCount(|xs|, s, count)
      && s <= |kept|
      && kept[..s] + removed + kept[s..] == xs
  {
    EditAt(doc, path, items => SpliceEdit(items, start, count))
  }

  /**
   * JavaScript's ToNumber for the values whose coercion the model covers:
   * the helpers' own check turns undefined into 0, `null` is 0 and booleans
   * are 0 or 1. Strings, sequences and mappings are not covered.
   */
  function Numeric(v: Option<Value>): (r: Option<int>)
    ensures r.None? <==> v.Some? && (v.value.Str? || v.value.Arr? || v.value.Obj?)
    ensures r.Some? ==> (r.value == 0 <==> !Truthy(v))
    ensures r.Some? && v.Some? && v.value.Int? ==> r.value == v.value.n
    ensures r.Some? && Truthy(v) && !(v.Some? && v.value.Int?) ==> r.value == 1
  {
    match v
    case None => Some(0)
    case Some(Null) => Some(0)
    case Some(Bool(b)) => Some(if b then 1 else 0)
    case Some(Int(n)) => Some(n)
    case Some(_) => None
  }

  /** `s.add(path, amount)`: adds to the number there, absent counting as 0, and answers the value read back. */
  function Add(doc: Doc, path: Paths.Path, amount: int): (r: Result<Facade.Step>)
    ensures r.Err? <==> Numeric(Paths.Get(doc, path)).None?
    ensures r.Ok? ==> r.value.reply == Some(Int(Numeric(Paths.Get(doc, path)).value + amount))
    ensures r.Ok? ==> r.value.wrote && Paths.Get(r.value.doc, path) == r.value.reply
    ensures r.Ok? ==> Paths.KeepsOthers(doc, r.value.doc, path)
    ensures r.Err? ==> r.error == Unmodelled
  {
    Facade.Update(doc, path, v => match Numeric(v) case None => Err(Unmodelled) case Some(n) => Ok(Some(Int(n + amount))))
  }

  /** `s.subtract(path, amount)`: subtracts from the number there, absent counting as 0, and answers the value read back. */
  function Subtract(doc: Doc, path: Paths.Path, amount: int): (r: Result<Facade.Step>)
    ensures r.Err? <==> Numeric(Paths.Get(doc, path)).None?
    ensures r.Ok? ==> r.value.reply == Some(Int(Numeric(Paths.Get(doc, path)).value - amount))
    ensures r.Ok? ==> r.value.wrote && Paths.Get(r.value.doc, path) == r.value.reply
    ensures r.Ok? ==> Paths.KeepsOthers(doc, r.value.doc, path)
    ensures r.Err? ==> r.error == Unmodelled
  {
    Facade.Update(doc, path, v => match Numeric(v) case None => Err(Unmodelled) case Some(n) => Ok(Some(Int(n - amount))))
  }

  /** Push then pop: the pushed value comes back and the sequence is as before. */
  lemma PushThenPop(doc: Doc, path: Paths.Path, x: Value)
    requires !Foreign(Paths.Get(doc, path))
    ensures Push(doc, path, [Some(x)]).Ok?
    ensures
      var pop := Pop(Push(doc, path, [Some(x)]).value.doc, path);
      && pop.Ok? && pop.value.reply == Some(x)
      && Paths.Get(pop.value.doc, path) == Some(Arr(Items(Paths.Get(doc, path))))
  {
    var xs := Items(Paths.Get(doc, path));
    var pushed := Push(doc, path, [Some(x)]).value.doc;
    assert AsElements([Some(x)]) == [x];
    assert Items(Paths.Get(pushed, path)) == xs + [x];
  }

  /** Unshift then shift: the value put in front comes back and the sequence is as before. */
  lemma UnshiftThenShift(doc: Doc, path: Paths.Path, x: Value)
    requires !Foreign(Paths.Get(doc, path))
    ensures Unshift(doc, path, [Some(x)]).Ok?
    ensures
      var shift := Shift(Unshift(doc, path, [Some(x)]).value.doc, path);
      && shift.Ok? && shift.value.reply == Some(x)
      && Paths.Get(shift.value.doc, path) == Some(Arr(Items(Paths.Get(doc, path))))
  {
    var xs := Items(Paths.Get(doc, path));
    var unshifted := Unshift(doc, path, [Some(x)]).value.doc;
    assert AsElements([Some(x)]) == [x];
    assert Items(Paths.Get(unshifted, path)) == [x] + xs;
  }

  /** The document after `n` sequential `s.add(path, 1)` calls (an error stops the count). */
  function AddOneTimes(doc: Doc, path: Paths.Path, n: nat): (r: Doc)
  {
    if n == 0 then doc
    else
      match Add(AddOneTimes(doc, path, n - 1), path, 1)
      case Ok(step) => step.doc
      case Err(_) => AddOneTimes(doc, path, n - 1)
  }

  /** A counter: `n` increments of an absent path leave `n` there. */
  lemma {:induction false} CountFromAbsent(doc: Doc, path: Paths.Path, n: nat)
    requires Paths.Get(doc, path) == None
    ensures Paths.Get(AddOneTimes(doc, path, n), path) == if n == 0 then None else Some(Int(n))
  {
    if n > 0 {
      CountFromAbsent(doc, path, n - 1);
      var prev := AddOneTimes(doc, path, n - 1);
      assert Numeric(Paths.Get(prev, path)) == Some(n - 1);
    }
  }
}

=== FILE: store.dfy ===
/**
 * A store instance end to end: every public operation loads the document
 * (except `clear`), applies its step, saves when the step writes, and, for
 * `update` and the shorthands built on it, loads once more.
 */
module Store {
  import opened Outcomes
  import opened Json
  import Paths
  import Facade
  import Shorthands
  import opened Persistence

  /** The public operations of a store instance, with their arguments. */
  datatype Op =
    | Get(path: Paths.Path, default: Option<Value>)
    | Set(path: Paths.Path, value: Option<Value>)
    | Del(path: Paths.Path)
    | Has(path: Paths.Path)
    | Clear
    | GetAll
    | Update(path: Paths.Path, updater: Option<Value> -> Result<Option<Value>>)
    | Push(path: Paths.Path, values: seq<Option<Value>>)
    | Unshift(path: Paths.Path, values: seq<Option<Value>>)
    | Shift(path: Paths.Path)
    | Pop(path: Paths.Path)
    | Splice(path: Paths.Path, start: int, count: int)
    | Add(path: Paths.Path, amount: int)
    | Subtract(path: Paths.Path, amount: int)

  /** The answer an operation gives, and the world it leaves. */
  datatype Outcome = Outcome(result: Result<Option<Value>>, world: World)

  /** The step an operation takes on a loaded document. */
  function Apply(op: Op, doc: Doc): (r: Result<Facade.Step>)
    ensures r.Ok? && AnswersReread(op) ==> r.value.reply == Paths.Get(r.value.doc, op.path)
    ensures r.Ok? && !r.value.wrote ==> r.value.doc == doc
    ensures r.Err? && !op.Update? ==> r.error in {NotAnArray, Unmodelled}
  {
    match op
    case Get(p, d) => Ok(Facade.Get(doc, p, d))
    case Set(p, v) => Ok(Facade.Set(doc, p, v))
    case Del(p) => Ok(Facade.Del(doc, p))
    case Has(p) => Ok(Facade.Has(doc, p))
    case Clear => Ok(Facade.Clear(doc))
    case GetAll => Ok(Facade.GetAll(doc))
    case Update(p, f) => Facade.Update(doc, p, f)
    case Push(p, vs) => Shorthands.Push(doc, p, vs)
    case Unshift(p, vs) => Shorthands.Unshift(doc, p, vs)
    case Shift(p) => Shorthands.Shift(doc, p)
    case Pop(p) => Shorthands.Pop(doc, p)
    case Splice(p, i, n) => Shorthands.Splice(doc, p, i, n)
    case Add(p, k) => Shorthands.Add(doc, p, k)
    case Subtract(p, k) => Shorthands.Subtract(doc, p, k)
  }

  /** `update` and everything built on it load the document again after saving. */
  predicate Rereads(op: Op)
  {
    op.Update? || op.Push? || op.Unshift? || op.Shift? || op.Pop? || op.Splice? || op.Add? || op.Subtract?
  }

  /** Of those, `update`, `add` and `subtract` answer the value read back. */
  predicate AnswersReread(op: Op)
  {
    op.Update? || op.Add? || op.Subtract?
  }

  /** What follows a successful load: apply, save if the step writes, re-load if the operation does. */
  function Finish(suppress: bool, w: World, op: Op, applied: Result<Facade.Step>): (o: Outcome)
    ensures o.result.Err? && o.result.error !in {IOError, ParseError, Exhausted} ==> applied.Err? && o.world == w
    ensures applied.Ok? && !applied.value.wrote ==> o == Outcome(Ok(applied.value.reply), w)
    ensures suppress && applied.Ok? && o.result.Err? ==> o.result.error == Exhausted
    ensures o.result.Ok? ==> applied.Ok?
    ensures applied.Ok? && applied.value.wrote && o.result.Ok? ==> o.world.file == Holds(applied.value.doc)
    ensures applied.Ok? && o.result.Ok? && (AnswersReread(op) ==> applied.value.reply == Paths.Get(applied.value.doc, op.path)) ==>
      o.result == Ok(applied.value.reply)
  {
    match applied
    case Err(e) => Outcome(Err(e), w)
    case Ok(step) =>
      if !step.wrote then Outcome(Ok(step.reply), w)
      else
        var s := Save(suppress, w, step.doc);
        if s.status.Fail? then Outcome(Err(s.status.error), s.world)
        else if !Rereads(op) then Outcome(Ok(step.reply), s.world)
        else
          var l := Load(suppress, s.world);
          if l.result.Err? then Outcome(Err(l.result.error), l.world)
          else if AnswersReread(op) then Outcome(Ok(Paths.Get(l.result.value, op.path)), l.world)
          else Outcome(Ok(step.reply), l.world)
  }

  /**
   * One call of a public operation on a store instance. Usage errors and
   * unmodelled coercions leave the file as it was; `has` and `getAll` change
   * it at most by creating a missing file as `{}`; under suppression no read,
   * parse or write error ever reaches the caller.
   */
  function Run(suppress: bool, w: World, op: Op): (o: Outcome)
    ensures !op.Update? && o.result.Err? && o.result.error in {NotAnArray, Unmodelled} ==> o.world.file == w.file
    ensures op.Has? || op.GetAll? ==> o.world.file == w.file || (w.file.Absent? && o.world.file == Holds(map[]))
    ensures !op.Update? && suppress && o.result.Err? ==> o.result.error in {Exhausted, NotAnArray, Unmodelled}
  {
    if op.Clear? then
      var s := Save(suppress, w, map[]);
      Outcome(if s.status.Pass? then Ok(Some(Obj(map[]))) else Err(s.status.error), s.world)
    else
      var l := Load(suppress, w);
      if l.result.Err? then Outcome(Err(l.result.error), l.world)
      else
        ApplyToEmpty(op);
        assert !op.Update? && Apply(op, l.result.value).Err? ==> Apply(op, l.result.value).error in {NotAnArray, Unmodelled};
        Finish(suppress, l.world, op, Apply(op, l.result.value))
  }

  /**
   * No operation but `update` with a throwing updater fails on the empty
   * document, and the only errors a step raises are usage errors and
   * unmodelled coercions: a freshly created file never trips a usage error.
   */
  lemma ApplyToEmpty(op: Op)
    ensures !op.Update? ==> Apply(op, map[]).Ok?
    ensures forall d: Doc {:trigger Apply(op, d)} :: !op.Update? && Apply(op, d).Err? ==> Apply(op, d).error in {NotAnArray, Unmodelled}
  {
    if !op.Clear? && !op.GetAll? {
      assert Paths.Get(map[], op.path) == None;
    }
  }

  /**
   * With a file holding a document and a file system that lets every attempt
   * through, a call answers what its step answers and leaves the file holding
   * what the step saves, or untouched when the step does not save.
   */
  lemma RunFaultFree(suppress: bool, doc: Doc, script: seq<Attempt>, op: Op)
    requires Faults !in script && Truncates !in script && |script| >= 3
    ensures
      var o := Run(suppress, World(Holds(doc), script), op);
      match Apply(op, doc)
      case Err(e) => o.result == Err(e) && o.world.file == Holds(doc)
      case Ok(step) => o.result == Ok(step.reply) && o.world.file == Holds(if step.wrote then step.doc else doc)
  {
    assert script[0] == Succeeds by { assert script[0] in script; }
    if !op.Clear? {
      var w := World(Holds(doc), script[1..]);
      assert Load(suppress, World(Holds(doc), script)) == Loaded(Ok(doc), w);
      assert Run(suppress, World(Holds(doc), script), op) == Finish(suppress, w, op, Apply(op, doc));
      FinishFaultFree(suppress, w, op, Apply(op, doc));
    }
  }

  /** The fault-free part of `RunFaultFree` after the load. */
  lemma FinishFaultFree(suppress: bool, w: World, op: Op, applied: Result<Facade.Step>)
    requires Faults !in w.script && Truncates !in w.script && |w.script| >= 2 && w.file.Holds?
    requires applied.Ok? && AnswersReread(op) ==> applied.value.reply == Paths.Get(applied.value.doc, op.path)
    ensures
      var o := Finish(suppress, w, op, applied);
      match applied
      case Err(e) => o.result == Err(e) && o.world.file == w.file
      case Ok(step) => o.result == Ok(step.reply) && o.world.file == (if step.wrote then Holds(step.doc) else w.file)
  {
    assert w.script[0] == Succeeds by { assert w.script[0] in w.script; }
    assert w.script[1] == Succeeds by { assert w.script[1] in w.script; }
  }

  /**
   * A call that succeeds, after however many retried faults, answers what
   * its step answers on the document the file started with (`{}` for a
   * missing file) and leaves the file holding what the step saves. Only
   * `clear` can succeed on a file that does not parse.
   */
  lemma RunOk(suppress: bool, w: World, op: Op)
    requires Run(suppress, w, op).result.Ok?
    ensures
      var start := if w.file.Holds? then w.file.doc else map[];
      var o := Run(suppress, w, op);
      && (op.Clear? || !w.file.Garbage?)
      && Apply(op, start).Ok?
      && o.result == Ok(Apply(op, start).value.reply)
      && o.world.file == Holds(if Apply(op, start).value.wrote then Apply(op, start).value.doc else start)
  {
  }

  /** How many attempts must get through for a call to complete: a load, a save, a re-load. */
  function SuccessesNeeded(op: Op): (n: nat)
    ensures 1 <= n <= 3
  {
    if op.Clear? then 1 else if Rereads(op) then 3 else 2
  }

  /**
   * Under suppression, faults and truncated writes along the way are
   * invisible: once enough attempts get through, a call on a file holding
   * a document answers what its step answers and leaves the file holding
   * what the step saves, exactly as with no faults at all.
   */
  lemma RunSuppressedRetries(doc: Doc, script: seq<Attempt>, op: Op)
    requires multiset(script)[Succeeds] >= SuccessesNeeded(op)
    ensures
      var o := Run(true, World(Holds(doc), script), op);
      match Apply(op, doc)
      case Err(e) => o.result == Err(e) && o.world.file == Holds(doc)
      case Ok(step) => o.result == Ok(step.reply) && o.world.file == Holds(if step.wrote then step.doc else doc)
  {
    var w := World(Holds(doc), script);
    if op.Clear? {
      SaveStopsAtFirstSuccess(w, map[]);
    } else {
      LoadStopsAtFirstSuccess(w);
      SuccessesAfterFirst(script);
      var w1 := World(Holds(doc), script[FirstSuccess(script) + 1..]);
      assert Load(true, w) == Loaded(Ok(doc), w1);
      assert Run(true, w, op) == Finish(true, w1, op, Apply(op, doc));
      FinishSuppressedRetries(w1, op, Apply(op, doc));
    }
  }

  /** The part of `RunSuppressedRetries` after the load. */
  lemma FinishSuppressedRetries(w: World, op: Op, applied: Result<Facade.Step>)
    requires w.file.Holds? && multiset(w.script)[Succeeds] >= SuccessesNeeded(op) - 1
    requires !op.Clear?
    requires applied.Ok? && AnswersReread(op) ==> applied.value.reply == Paths.Get(applied.value.doc, op.path)
    ensures
      var o := Finish(true, w, op, applied);
      match applied
      case Err(e) => o.result == Err(e) && o.world.file == w.file
      case Ok(step) => o.result == Ok(step.reply) && o.world.file == (if step.wrote then Holds(step.doc) else w.file)
  {
    if applied.Ok? && applied.value.wrote {
      var step := applied.value;
      SaveStopsAtFirstSuccess(w, step.doc);
      var saved := World(Holds(step.doc), w.script[FirstSuccess(w.script) + 1..]);
      assert Save(true, w, step.doc) == Saved(Pass, saved);
      if Rereads(op) {
        SuccessesAfterFirst(w.script);
        LoadStopsAtFirstSuccess(saved);
        assert Load(true, saved).result == Ok(step.doc);
      }
    }
  }

  /** A suppressed `set` gets through a fault, then a truncated write and another fault. */
  lemma SetThroughFaults(doc: Doc, path: Paths.Path, value: Value)
    ensures
      var o := Run(true, World(Holds(doc), [Faults, Succeeds, Truncates, Faults, Succeeds]), Set(path, Some(value)));
      && o.result == Ok(Some(value))
      && o.world.file == Holds(Paths.Put(doc, path, Some(value)))
  {
    var script := [Faults, Succeeds, Truncates, Faults, Succeeds];
    assert multiset(script)[Succeeds] == 2;
    RunSuppressedRetries(doc, script, Set(path, Some(value)));
  }

  /** `set` then `get` across two calls answers the value set, without another save. */
  lemma SetThenGet(suppress: bool, w: World, path: Paths.Path, value: Value, default: Option<Value>)
    requires Run(suppress, w, Set(path, Some(value))).result.Ok?
    ensures
      var first := Run(suppress, w, Set(path, Some(value)));
      var second := Run(suppress, first.world, Get(path, default));
      && first.result == Ok(Some(value))
      && (second.result.Ok? ==> second.result.value == Some(value) && second.world.file == first.world.file)
  {
    var first := Run(suppress, w, Set(path, Some(value)));
    var l := Load(suppress, first.world);
    if l.result.Ok? {
      Facade.SetThenGet(l.result.value, path, value, default);
    }
  }

  /** `del` then `has` across two calls answers false. */
  lemma DelThenHas(suppress: bool, w: World, path: Paths.Path)
    requires Run(suppress, w, Del(path)).result.Ok?
    ensures
      var second := Run(suppress, Run(suppress, w, Del(path)).world, Has(path));
      second.result.Ok? ==> second.result.value == Some(Bool(false))
  {
    var first := Run(suppress, w, Del(path));
    var l := Load(suppress, first.world);
    if l.result.Ok? {
    }
  }

  /** `clear` then `getAll` across two calls answers the empty mapping. */
  lemma ClearThenGetAll(suppress: bool, w: World)
    requires Run(suppress, w, Clear).result.Ok?
    ensures
      var second := Run(suppress, Run(suppress, w, Clear).world, GetAll);
      second.result.Ok? ==> second.result.value == Some(Obj(map[]))
  {
  }

  /**
   * `update` can report a failure after its save has landed: the save goes
   * through, the re-load that produces the answer does not.
   */
  lemma UpdateFailsAfterSave(doc: Doc, path: Paths.Path, f: Option<Value> -> Result<Option<Value>>)
    requires f(Paths.Get(doc, path)).Ok?
    ensures
      var o := Run(false, World(Holds(doc), [Succeeds, Succeeds, Faults]), Update(path, f));
      && o.result == Err(IOError)
      && o.world.file == Holds(Paths.Put(doc, path, f(Paths.Get(doc, path)).value))
  {
  }
}
